=== FILE: README.md ===
# Books API: authentication and book handlers in Dafny

This project models the decision logic of a small REST backend for a books
catalogue. The backend offers user signup and login with hashed passwords,
plus create/read/update/delete endpoints for books that require a bearer token.
Every library the backend calls is a parameter of the model, because its
internals are outside it:

- the password hasher: `Bcrypt(genSalt, hash, compare)`
- the token issuer and verifier: `Jwt(sign, verify)`
- the email predicate: `isEmail`
- the library's string-to-number and string-to-date casts: `Casts(number, date)`
- the `APIFeatures` query builder used by `getAllBooks`: an opaque function from the collection to a sequence of documents

A property that needs something of a library takes it as an explicit
predicate (`HashNeverIdentity`, `CompareAcceptsHash`, `TokensRoundTrip`,
`CompactTokens`) and requires it only where it is used.

Modules, following the source files:

- `Wrappers`: `Option` and `Result`.
- `Api`: document ids, the errors a handler hands to `next`, and
  `Outcome` (the store after a request, plus the reply). A failure is
  either an `AppError(message, statusCode)` the handler builds itself, or an
  error kind a library throws: validation, duplicate key, token, or hash. The
  mapping of thrown kinds to HTTP statuses lives in the global error handler
  and is left abstract.
- `Strings`: JavaScript's `startsWith`, `split` on one character (with `Join`
  as its inverse), `trim`, and `toLowerCase`.
- `UserModel`: the user schema. It covers the field validators, the
  `pre('save')` hashing step, the `select: false` projection of the
  password, `validatePassword`, and the unique email index.
- `AuthController`: `signToken`, `createSendToken`, `signup`, `login`, and
  the `protect` middleware with its bearer-token extraction.
- `BookModel`: the book schema. It covers per-path casts and validators,
  whole-document creation, partial updates validated on the paths they
  set, and the unique title index.
- `BookController`: `getAllBooks`, `getOneBook`, `createBook`,
  `updateBook`, and `deleteBook` over a `map<Id, Book>` store.

Token extraction follows the code, which is looser than the bearer scheme of
section 2.1 of RFC 6750. The header only has to start with `Bearer`
(case-sensitive). The token is the second space-separated field. So
`BearerX abc` yields `abc`, while `Bearer  abc` (two spaces) yields nothing.
`BearerTokenMatchesReference` states the extraction independently: the run
of non-space characters right after the first space.

Two behaviours of the code worth stating:

- `signup` reports a mismatched confirmation and a short password through the
  schema's validation error. It does not check them separately.
- A token that fails verification reaches the error handler as a thrown
  token error. It is not built as a 401 inside `protect`.

## Model

| member | source | states |
|---|---|---|
| `Strings.StartsWith` | controllers/authController.js:63 | `startsWith` holds exactly when the string is the prefix followed by some rest |
| `Strings.Split` | controllers/authController.js:64 | `split(' ')` yields at least one field, and no field contains the separator |
| `Strings.JoinSplit` | controllers/authController.js:64 | joining the split fields with the separator gives back the original header |
| `Strings.Trim` | models/bookModel.js:8 | the trimmed string is no longer than the original and neither of its ends is white space |
| `Strings.TrimIsInfix` | models/bookModel.js:8 | `trim` keeps an infix whose ends are not white space and drops only white space on both sides |
| `Strings.TrimIdempotent` | models/bookModel.js:8 | trimming an already trimmed title changes nothing |
| `Strings.ToLower` | models/userModel.js:14 | a lower-cased email keeps its length and has no capitals, and lower-case strings are exactly its fixed points |
| `Strings.ToLowerEqualIgnoringCase` | models/userModel.js:14 | two emails lower-case to the same string exactly when they are equal up to ASCII case, defined character by character without `ToLower` |
| `UserModel.UserErrors` | models/userModel.js:6-33 | a user passes validation exactly when name is non-empty, email is non-empty and accepted by `isEmail`, password has at least 8 characters, and the confirmation equals the password |
| `UserModel.PreSave` | models/userModel.js:37-42 | the saved password is `hash(password, genSalt(12))`, the confirmation is undefined, and nothing else changes |
| `UserModel.DefaultView` | models/userModel.js:21 | a default read leaves out the password and keeps every other field |
| `UserModel.ValidatePassword` | models/userModel.js:49-51 | a candidate is accepted against any digest that hashes that same candidate, given that `compare` agrees with `hash` |
| `UserModel.FindByEmail` | controllers/authController.js:47 | the lookup finds a user exactly when one holds the email, and under the unique index it is that user |
| `UserModel.PreSaveStores` | models/userModel.js:37-42 | a validated, lower-cased user becomes a well-formed stored user; a one-way hash never leaves the plain password; `compare` accepts the stored digest |
| `AuthController.SignToken` | controllers/authController.js:7-10 | the issued token verifies to the id it was signed for |
| `AuthController.CreateSendToken` | controllers/authController.js:12-27 | the reply's user has exactly `_id`, `name` and `email` (never `password` or `passwordConfirm`), and its token verifies to `user._id` |
| `AuthController.Signup` | controllers/authController.js:29-37 | succeeds exactly when validation passes and the lower-cased email is free; then it adds only the new user (hashed password, no confirmation) and answers 201; an invalid body is a validation error, a valid body with a taken email is a duplicate-key error, and on any failure the store is unchanged |
| `AuthController.NewUser` | controllers/authController.js:30-35 | the new document takes only name, email, password and passwordConfirm from the body, with the email lower-cased (an already lower-case email is kept as sent) |
| `AuthController.SignupPreservesStore` | models/userModel.js:10-16 | signup keeps emails unique and every stored user validated, lower-cased, hashed and without confirmation |
| `AuthController.SignupHashesPassword` | models/userModel.js:37-42 | the stored secret after signup never equals the plain password, given a one-way hash |
| `AuthController.SignupIgnoresExtraFields` | controllers/authController.js:30-35 | body fields other than name, email, password and passwordConfirm have no effect |
| `AuthController.SignupRejectsInvalidBodies` | test/user.test.js:57-105 | empty name, invalid email, mismatched confirmation and a seven-character password are each a validation failure, and nothing is stored |
| `AuthController.Login` | controllers/authController.js:39-58 | a missing or empty field gives 400 whatever the store; an unknown email gives 401; success happens exactly when a user holds the lower-cased email and `compare` accepts; it then answers 200 for that user |
| `AuthController.LoginFailuresIndistinguishable` | controllers/authController.js:46-53 | an unknown email and a wrong password give the same 401 and the same message |
| `AuthController.LoginIgnoresEmailCase` | controllers/authController.js:46-48 | two login emails equal up to ASCII case get the same answer, since the lookup lower-cases the filter |
| `AuthController.SignupThenLogin` | controllers/authController.js:29-58 | after a signup, logging in with the same email and password succeeds, and its token verifies to the new user's id |
| `AuthController.SecondField` | controllers/authController.js:64 | `split(' ')[1]` is defined exactly when the header contains a space, and it contains no space itself |
| `AuthController.BearerToken` | controllers/authController.js:62-69 | a token is extracted only from a header that starts with `Bearer`; it is non-empty and free of spaces |
| `AuthController.BearerTokenMatchesReference` | controllers/authController.js:63-64 | the extraction equals the non-space run right after the first space of a `Bearer`-prefixed header |
| `AuthController.BearerTokenOf` | controllers/authController.js:63-64 | every header `p + " " + t + rest` with the prefix, with no space in `p` or `t`, and `rest` empty or starting with a space, yields `t` |
| `AuthController.BearerTokenRejectsMalformed` | controllers/authController.js:62-69 | no header, empty, `Bearer`, `BearerX` and `bearer abc` yield no token |
| `AuthController.BearerTokenRejectsTrailingSpace` | controllers/authController.js:62-69 | `Bearer ` yields no token |
| `AuthController.BearerTokenRejectsDoubleSpace` | controllers/authController.js:62-69 | `Bearer  abc` yields no token |
| `AuthController.BearerTokenAcceptsPrefixedScheme` | controllers/authController.js:63-64 | `Bearer abc` and also `BearerX abc` yield `abc` |
| `AuthController.Protect` | controllers/authController.js:60-83 | access is granted exactly when a token is extracted, verifies, and its id is in the store; the request then carries that user without the password; on rejection the request is unchanged; no token gives the 401 "not logged in" |
| `AuthController.ProtectWithoutToken` | controllers/authController.js:62-69 | without a token the answer is the same whatever the verifier and the store, so neither is consulted |
| `AuthController.ProtectRejectsBadToken` | controllers/authController.js:71-72 | a token that fails verification is passed on as a thrown token error, and nothing is granted |
| `AuthController.ProtectLooksUpDecodedId` | controllers/authController.js:74-78 | only `decoded.id` is looked up: stores that agree there answer alike, and a missing user gives 401 |
| `AuthController.LoginThenProtect` | controllers/authController.js:39-83 | a token from a successful login, sent as `Bearer <token>`, grants access as that user, with the password not selected |
| `BookModel.CheckTitle` | models/bookModel.js:4-11 | a title is accepted exactly when its trimmed length is in [1, 50]; the stored title is trimmed |
| `BookModel.CheckPageCount` | models/bookModel.js:12-15 | a JSON number is kept; a string goes through the Number cast; the empty string casts to null, which `required` rejects |
| `BookModel.CheckPublishedDate` | models/bookModel.js:16-18 | a date is rejected exactly when it is a number outside the valid time-value range of ±8.64e15 ms, or a non-empty string the Date cast refuses or maps outside that range; an accepted number is kept; the empty string stores null |
| `BookModel.CheckShortDescription` | models/bookModel.js:22-26 | a short description is accepted exactly when its length is in [1, 100], and it is stored unchanged |
| `BookModel.CheckLongDescription` | models/bookModel.js:27-30 | a long description is accepted exactly when it is non-empty, and it is stored unchanged |
| `BookModel.CheckStatus` | models/bookModel.js:31-38 | a status is accepted exactly when it is `PUBLISHED` or `NOT PUBLISHED` |
| `BookModel.ValidBook` | models/bookModel.js:3-41 | a book is valid exactly when its validators accept its title unchanged, accept its short and long descriptions, and its date, if any, is a valid time value |
| `BookModel.PresentErrors` | models/bookModel.js:3-41 | a body has no rejected path exactly when every path it sets passes its validator |
| `BookModel.MissingPaths` | models/bookModel.js:3-41 | a body misses no path exactly when title, pageCount, shortDescription, longDescription and status are all set |
| `BookModel.CastInput` | models/bookModel.js:3-41 | casting fails exactly when a set path is rejected, and reports those paths; on success each path the body sets holds its validator's output (the trimmed title, the cast number or date, the enum value), the other paths stay unset, and every value meets its validator |
| `BookModel.Apply` | controllers/bookController.js:46-49 | an update gives each path it sets the update's value, keeps every other path, and keeps a valid book valid |
| `BookModel.BuildBook` | controllers/bookController.js:36 | creation fails exactly when a required path is missing or a set path is rejected, and reports all of them; a created book is valid, and each path holds the body's value as cast and validated (trimmed title, cast page count and date, the enum status), with an absent date and url undefined and absent authors empty |
| `BookModel.PatchBook` | controllers/bookController.js:46-49 | a patch validates only the paths it sets, fails exactly when one of them is rejected, and keeps a valid book valid |
| `BookModel.BuildBookRoundTrip` | models/bookModel.js:3-41 | every valid book is accepted from its own fields and built back unchanged |
| `BookModel.OptionalPathsMayBeOmitted` | models/bookModel.js:16-41 | leaving out publishedDate, thumbnailUrl and authors keeps a body accepted, with those paths undefined or empty |
| `BookModel.PatchNothing` | controllers/bookController.js:46-49 | an update that sets no path leaves the book as it was |
| `BookModel.PatchEverything` | controllers/bookController.js:46-49 | an update that sets every path gives what creation from the same body gives |
| `BookModel.TitleTrimmedBeforeCheck` | models/bookModel.js:8-10 | the stored title is the trimmed one, and a title of white space alone is rejected |
| `BookModel.BuildBookRejectsTestBodies` | test/book.test.js:104-155 | the tests' own bodies with a `'text'` page count (when the Number cast refuses it), an empty title and the status `WRONG STATUS` are each rejected, whatever the date cast does |
| `BookController.GetAllBooks` | controllers/bookController.js:6-18 | the reply is 200, carries the query's books each with its `_id`, and `results` is their number |
| `BookController.GetOneBook` | controllers/bookController.js:20-33 | an absent id gives 404; a present id gives 200 with exactly the stored book and its `_id` |
| `BookController.CreateBook` | controllers/bookController.js:35-43 | success happens exactly when the body validates and its title is free; it then adds exactly one entry, changes no other, and answers 201 with the new document and its `_id`; an invalid body is a validation error, a valid body with a taken title a duplicate-key error, and any failure leaves the store unchanged |
| `BookController.UpdateBook` | controllers/bookController.js:45-61 | the patch is validated first; an absent id gives 404; a valid patch whose title another book holds is a duplicate-key error; success happens exactly when the id exists, the patch validates and the new title is free; it then stores and returns the post-update book with its `_id` and changes no other entry |
| `BookController.DeleteBook` | controllers/bookController.js:63-74 | an absent id gives 404 with the store unchanged; a present id is removed, and no other entry changes; it answers 204 |
| `BookController.CreatePreservesStore` | models/bookModel.js:7 | creation keeps titles unique and every stored book valid |
| `BookController.UpdatePreservesStore` | controllers/bookController.js:45-61 | updating keeps titles unique and every stored book valid |
| `BookController.DeletePreservesStore` | controllers/bookController.js:63-74 | deletion keeps titles unique and every stored book valid |
| `BookController.CreateThenReadAndDuplicate` | controllers/bookController.js:20-43 | a created book reads back unchanged, and a second book with the same title is refused by the unique index |
| `BookController.UpdateThenRead` | test/book.test.js:192-203 | after an update, reading the id gives the post-update document: each path the patch sets holds the patch's validated value (the trimmed title, for one), and every path it does not set keeps its old value |
| `BookController.UpdateTitleThenRead` | test/book.test.js:192-203 | a patch setting only `title: 'updated title'` answers 200 and stores the old document with just that title replaced, and a read returns it |
| `BookController.CreateTestBookThenRead` | test/book.test.js:84-102 | the test's creation body, with its string date, is accepted by any date cast that maps `11.05.2009` to a valid time value; it answers 201 with the new `_id` and stores every field as sent, and reading that `_id` returns the title `test book creation` |
| `BookController.DeleteThenRead` | test/book.test.js:217-225 | after a deletion the id reads as 404 and every other id reads as before |

## Left out

- utils/apiFeatures.js is not part of this model: the `APIFeatures` builder (filtering, sorting, field limiting, paging, controllers/bookController.js:7) is opaque, and `getAllBooks` takes its result as a function.
- Route wiring, and so the order "`protect` before the book handler", is not part of this model. Neither is the "delete without a token leaves the book" scenario built on it.
- The global error handler, `catchAsync` and `AppError` are not part of this model. Thrown errors stay abstract kinds, and malformed ids (the library's cast error) are not modelled, because ids are always well formed here.
- Security middleware, body limits, sanitization, rate limiting, the server lifecycle and the test fixtures are configuration or I/O.
- Hashing, salts, token signing and verification, token expiry, `isEmail`, and the Number and Date casts are opaque library calls. Randomness (the salt's entropy, fresh ids) is passed in as a parameter.
- The no-op `findByIdAndUpdate` after a successful login has no observable effect.
- Concurrency and the atomicity of unique indexes belong to the store. Each request is one atomic step here.
- `Strings.ToLower`: maps only the ASCII capitals, because JavaScript's full Unicode case mapping (which may change lengths) is not modelled.
- `BookModel.CheckTitle`: lengths count Unicode code points, not the UTF-16 code units JavaScript counts, so characters outside the Basic Multilingual Plane count once here.
- `BookModel.CastInput`: a Number path given a non-numeric string is a cast error on update too. The model reports every rejected update path as a validation error, not separating cast errors from validator errors.
- `UserModel.UserErrors`: the password minimum length of 8 counts Unicode code points, not the UTF-16 code units JavaScript counts. So a password of four characters outside the Basic Multilingual Plane (8 code units) is rejected here but accepted by the source.
- `BookModel.CheckShortDescription`: the maximum length of 100 counts Unicode code points, not UTF-16 code units. So a description of 60 characters outside the Basic Multilingual Plane (120 code units) is accepted here but rejected by the source. `BookModel.ValidBook` inherits the same difference.
- `BookModel.Json`: JSON numbers are integers here, so a fractional value such as `pageCount: 12.5` (which the Number cast accepts) cannot be sent. JavaScript numbers are IEEE doubles, so `pageCount: 9007199254740993` is stored as 9007199254740992 by the source but stored exactly here. JSON `null` cannot be sent either, so a patch cannot clear an optional path such as `thumbnailUrl` or `publishedDate` by setting it to `null`. Only the empty string on a Date path, which casts to null, is modelled.
- `BookController.CreateBook`: the id of a new book is a fresh parameter. A body that sets `_id` itself, which the library keeps (and refuses as a duplicate key when taken), is not modelled.
- `AuthController.SignupBody` and `AuthController.LoginBody`: fields are strings or absent. The library casts other JSON scalars on the user's String paths (a numeric `password: 12345678` is stored as the hash of `"12345678"`). Login hands a non-string password straight to `bcrypt.compare`, which throws. Neither is modelled.
- `BookModel.BookInput`: JSON values of other types on String paths (numbers, booleans, objects) and properties outside the schema are not modelled.
- `UserModel.PreSave`: a failing `bcrypt.hash` is not modelled. The hash is a total function.

=== FILE: api.dfy ===
/** What the request handlers share: document identifiers, the errors they
    hand to `next`, and the pair (store after the request, reply). */
module Api {
  import opened Wrappers

  /** A document identifier (a MongoDB ObjectId). */
  type Id = nat

  /** Errors raised by a library rather than by the handlers themselves. Their
      mapping to HTTP status codes lives in the global error handler, which is
      not part of this model. */
  datatype ErrorKind =
    | ValidationError   // a schema validator or a cast rejected a document
    | DuplicateKey      // a unique index rejected a write
    | TokenError        // jwt.verify rejected the token (bad signature, expired, malformed)
    | HashError         // bcrypt was handed an undefined argument

  /** The argument a handler passes to `next`: an operational error built with an
      explicit message and status, or an error a library threw. */
  datatype Failure =
    | AppError(message: string, statusCode: nat)
    | Thrown(kind: ErrorKind)

  /** The store after a request, and what the request answered. */
  datatype Outcome<S, R> = Outcome(store: S, reply: Result<R, Failure>)
}

=== FILE: auth_controller.dfy ===
/** The authentication handlers: `signToken`, `createSendToken`, `signup`,
    `login`, and the `protect` middleware with its bearer-token extraction. */
module AuthController {
  import opened Wrappers
  import opened Strings
  import opened Api
  import opened UserModel

  /** jsonwebtoken, treated as opaque: `sign(id)` issues a token for the
      payload `{ id }` (secret and expiry come from the environment), and
      `verify(token)` returns the payload's `id`, or `None` when the token is
      rejected for any reason (bad signature, expired, malformed). */
  datatype Jwt = Jwt(sign: Id -> string, verify: string -> Option<Id>)

  /** The assumed agreement of `verify` with `sign` (expiry not modelled). */
  ghost predicate TokensRoundTrip(jwt: Jwt) {
    forall id: Id :: jwt.verify(jwt.sign(id)) == Some(id)
  }

  /** Issued tokens are in the compact serialization of section 7.1 of
      RFC 7515: non-empty and free of spaces. */
  ghost predicate CompactTokens(jwt: Jwt) {
    forall id: Id :: |jwt.sign(id)| > 0 && ' ' !in jwt.sign(id)
  }

  /** A property of the `user` object in a reply, before JSON serialization. */
  datatype Field = IdField(id: Id) | TextField(text: string) | Undefined

  function AsField(v: Option<string>): Field {
    match v
    case Some(s) => TextField(s)
    case None => Undefined
  }

  /** The JSON reply of `createSendToken`. */
  datatype AuthReply = AuthReply(statusCode: nat, token: string, user: map<string, Field>)

  const Scheme: string := "Bearer"
  const NotLoggedIn: string := "You are not logged in! Please log in to get access."
  const UserGone: string := "The user belonging to this token does no longer exist."
  const MissingCredentials: string := "Please enter email and password"
  const BadCredentials: string := "Please enter correct email and password"

  // ---------------------------------------------------------------------------
  // Issuing tokens

  /** `signToken(id)`: a token whose payload is `{ id }`. */
  function SignToken(jwt: Jwt, id: Id): (token: string)
    ensures TokensRoundTrip(jwt) ==> jwt.verify(token) == Some(id)
  {
    jwt.sign(id)
  }

  /** `createSendToken(user, statusCode, res)`: a token for `user._id` and a
      user object holding exactly `_id`, `name` and `email`, so neither the
      password nor its confirmation can leave the server. */
  function CreateSendToken(jwt: Jwt, u: User, statusCode: nat): (r: AuthReply)
    ensures r.statusCode == statusCode
    ensures r.user.Keys == {"_id", "name", "email"}
    ensures "password" !in r.user && "passwordConfirm" !in r.user
    ensures r.user["_id"] == IdField(u.id) && r.user["name"] == AsField(u.name) && r.user["email"] == AsField(u.email)
    ensures TokensRoundTrip(jwt) ==> jwt.verify(r.token) == Some(u.id)
  {
    AuthReply(statusCode, SignToken(jwt, u.id), map["_id" := IdField(u.id), "name" := AsField(u.name), "email" := AsField(u.email)])
  }

  // ---------------------------------------------------------------------------
  // signup

  /** A signup request body: the four schema fields and whatever else was sent. */
  datatype SignupBody = SignupBody(
    name: Option<string>,
    email: Option<string>,
    password: Option<string>,
    passwordConfirm: Option<string>,
    extra: map<string, string>)

  function LowerCased(v: Option<string>): Option<string> {
    match v
    case Some(s) => Some(ToLower(s))
    case None => None
  }

  /** The document `User.create` builds from the body: only the four named
      fields, with the `lowercase` setter applied to the email. */
  function NewUser(id: Id, body: SignupBody): (u: User)
    ensures u.id == id && u.name == body.name && u.password == body.password && u.passwordConfirm == body.passwordConfirm
    ensures u.email.Some? <==> body.email.Some?
    ensures u.email.Some? ==> IsLower(u.email.value) && |u.email.value| == |body.email.value|
    ensures u.email.Some? && IsLower(body.email.value) ==> u.email == body.email
  {
    User(id, body.name, LowerCased(body.email), body.password, body.passwordConfirm)
  }

  /** `signup`: validate, hash, insert (the unique email index may refuse the
      insert), and answer 201 with a token for the new user. */
  function Signup(bcrypt: Bcrypt, isEmail: string -> bool, jwt: Jwt, users: map<Id, User>, newId: Id, entropy: nat, body: SignupBody)
    : (r: Outcome<map<Id, User>, AuthReply>)
    requires newId !in users
    ensures r.reply.Failure? ==> r.store == users
    ensures r.reply == Failure(Thrown(ValidationError)) <==> UserErrors(isEmail, NewUser(newId, body)) != {}
    ensures UserErrors(isEmail, NewUser(newId, body)) == {} && EmailTaken(users, ToLower(body.email.value))
            ==> r.reply == Failure(Thrown(DuplicateKey))
    ensures r.reply.Success? <==>
      UserErrors(isEmail, NewUser(newId, body)) == {} && !EmailTaken(users, ToLower(body.email.value))
    ensures r.reply.Success? ==>
      && newId in r.store
      && r.store == users[newId := r.store[newId]]
      && r.store[newId] == User(newId, body.name, Some(ToLower(body.email.value)),
                                Some(bcrypt.hash(body.password.value, bcrypt.genSalt(SaltRounds, entropy))), None)
      && r.reply.value == CreateSendToken(jwt, r.store[newId], 201)
  {
    var u := NewUser(newId, body);
    if UserErrors(isEmail, u) != {} then
      Outcome(users, Failure(Thrown(ValidationError)))
    else
      var saved := PreSave(bcrypt, entropy, u);
      if EmailTaken(users, saved.email.value) then
        Outcome(users, Failure(Thrown(DuplicateKey)))
      else
        Outcome(users[newId := saved], Success(CreateSendToken(jwt, saved, 201)))
  }

  /** Signup keeps the users collection well formed: unique emails, and every
      stored user validated, lower-cased, hashed and without confirmation. */
  lemma SignupPreservesStore(bcrypt: Bcrypt, isEmail: string -> bool, jwt: Jwt, users: map<Id, User>, newId: Id, entropy: nat, body: SignupBody)
    requires newId !in users
    requires UserStoreOk(isEmail, users)
    ensures UserStoreOk(isEmail, Signup(bcrypt, isEmail, jwt, users, newId, entropy, body).store)
  {
    var r := Signup(bcrypt, isEmail, jwt, users, newId, entropy, body);
    if r.reply.Success? {
      var u := NewUser(newId, body);
      PreSaveStores(isEmail, bcrypt, entropy, u);
      var saved := r.store[newId];
      assert !EmailTaken(users, saved.email.value);
    }
  }

  /** The stored secret is never the plain password, given the hash is one-way. */
  lemma SignupHashesPassword(bcrypt: Bcrypt, isEmail: string -> bool, jwt: Jwt, users: map<Id, User>, newId: Id, entropy: nat, body: SignupBody)
    requires newId !in users
    requires HashNeverIdentity(bcrypt)
    requires Signup(bcrypt, isEmail, jwt, users, newId, entropy, body).reply.Success?
    ensures Signup(bcrypt, isEmail, jwt, users, newId, entropy, body).store[newId].password != body.password
  {
    PreSaveStores(isEmail, bcrypt, entropy, NewUser(newId, body));
  }

  /** Body fields other than the four schema fields have no effect. */
  lemma SignupIgnoresExtraFields(bcrypt: Bcrypt, isEmail: string -> bool, jwt: Jwt, users: map<Id, User>, newId: Id, entropy: nat, body: SignupBody, extra: map<string, string>)
    requires newId !in users
    ensures Signup(bcrypt, isEmail, jwt, users, newId, entropy, body)
         == Signup(bcrypt, isEmail, jwt, users, newId, entropy, body.(extra := extra))
  {
  }

  /** The four rejected signups of the user tests: empty name, invalid email,
      mismatched confirmation, seven-character password. None is stored. */
  lemma SignupRejectsInvalidBodies(bcrypt: Bcrypt, isEmail: string -> bool, jwt: Jwt, users: map<Id, User>, newId: Id, entropy: nat)
    requires newId !in users
    requires !isEmail("incorrectemail")
    ensures var r := Signup(bcrypt, isEmail, jwt, users, newId, entropy,
              SignupBody(Some(""), Some("incorrectemail"), Some("test1234"), Some("test1234"), map[]));
            r.reply == Failure(Thrown(ValidationError)) && r.store == users
    ensures var r := Signup(bcrypt, isEmail, jwt, users, newId, entropy,
              SignupBody(Some("wrongdatatest"), Some("incorrectemail"), Some("test1234"), Some("test1234"), map[]));
            r.reply == Failure(Thrown(ValidationError)) && r.store == users
    ensures var r := Signup(bcrypt, isEmail, jwt, users, newId, entropy,
              SignupBody(Some("wrongdatatest"), Some("incorrectemail@example.com"), Some("test1234"), Some("test12345"), map[]));
            r.reply == Failure(Thrown(ValidationError)) && r.store == users
    ensures var r := Signup(bcrypt, isEmail, jwt, users, newId, entropy,
              SignupBody(Some("wrongdatatest"), Some("incorrectemail@example.com"), Some("test123"), Some("test123"), map[]));
            r.reply == Failure(Thrown(ValidationError)) && r.store == users
  {
    assert ToLower("incorrectemail") == "incorrectemail";
  }

  // ---------------------------------------------------------------------------
  // login

  datatype LoginBody = LoginBody(email: Option<string>, password: Option<string>)

  /** `login`: both fields must be non-empty (400); then the user is looked up
      by email, with its password selected (the schema's `lowercase` setter
      also applies to the query filter), and an unknown email and a wrong
      password are answered alike (401); otherwise 200 with a fresh token. */
  function Login(bcrypt: Bcrypt, jwt: Jwt, users: map<Id, User>, body: LoginBody): (r: Result<AuthReply, Failure>)
    requires UniqueEmails(users)
    ensures !Required(body.email) || !Required(body.password) ==> r == Failure(AppError(MissingCredentials, 400))
    ensures Required(body.email) && Required(body.password) && !EmailTaken(users, ToLower(body.email.value))
            ==> r == Failure(AppError(BadCredentials, 401))
    ensures r.Success? <==>
      && Required(body.email) && Required(body.password)
      && exists id :: id in users && users[id].email == Some(ToLower(body.email.value)) && users[id].password.Some?
                      && bcrypt.compare(body.password.value, users[id].password.value)
    ensures r.Success? ==>
      exists id :: id in users && users[id].email == Some(ToLower(body.email.value)) && r.value == CreateSendToken(jwt, users[id], 200)
  {
    if !Required(body.email) || !Required(body.password) then
      Failure(AppError(MissingCredentials, 400))
    else
      match FindByEmail(users, ToLower(body.email.value))
      case None => Failure(AppError(BadCredentials, 401))
      case Some(u) =>
        if u.password.None? then Failure(Thrown(HashError))
        else if !ValidatePassword(bcrypt, body.password.value, u.password.value) then
          Failure(AppError(BadCredentials, 401))
        else
          Success(CreateSendToken(jwt, u, 200))
  }

  /** An unknown email and a wrong password cannot be told apart. */
  lemma LoginFailuresIndistinguishable(bcrypt: Bcrypt, jwt: Jwt, users: map<Id, User>, unknown: LoginBody, wrong: LoginBody, id: Id)
    requires UniqueEmails(users)
    requires Required(unknown.email) && Required(unknown.password) && !EmailTaken(users, ToLower(unknown.email.value))
    requires Required(wrong.email) && Required(wrong.password)
    requires id in users && users[id].email == Some(ToLower(wrong.email.value)) && users[id].password.Some?
    requires !bcrypt.compare(wrong.password.value, users[id].password.value)
    ensures Login(bcrypt, jwt, users, unknown) == Login(bcrypt, jwt, users, wrong) == Failure(AppError(BadCredentials, 401))
  {
  }

  /** The email's case does not matter at login: the lowercase setter applies
      to the query filter, so two emails equal up to ASCII case get the same
      answer. */
  lemma LoginIgnoresEmailCase(bcrypt: Bcrypt, jwt: Jwt, users: map<Id, User>, body: LoginBody, email: string)
    requires UniqueEmails(users)
    requires body.email.Some? && EqualIgnoringAsciiCase(body.email.value, email)
    ensures Login(bcrypt, jwt, users, body) == Login(bcrypt, jwt, users, body.(email := Some(email)))
  {
    ToLowerEqualIgnoringCase(body.email.value, email);
  }

  /** A user who signed up can log in with the same email and password, and
      the token issued names that user. */
  lemma SignupThenLogin(bcrypt: Bcrypt, isEmail: string -> bool, jwt: Jwt, users: map<Id, User>, newId: Id, entropy: nat, body: SignupBody)
    requires newId !in users
    requires UserStoreOk(isEmail, users)
    requires CompareAcceptsHash(bcrypt) && TokensRoundTrip(jwt)
    requires Signup(bcrypt, isEmail, jwt, users, newId, entropy, body).reply.Success?
    ensures var users' := Signup(bcrypt, isEmail, jwt, users, newId, entropy, body).store;
            UniqueEmails(users') &&
            var r := Login(bcrypt, jwt, users', LoginBody(body.email, body.password));
            r.Success? && r.value.statusCode == 200 && jwt.verify(r.value.token) == Some(newId)
  {
    var users' := Signup(bcrypt, isEmail, jwt, users, newId, entropy, body).store;
    SignupPreservesStore(bcrypt, isEmail, jwt, users, newId, entropy, body);
    var u := NewUser(newId, body);
    PreSaveStores(isEmail, bcrypt, entropy, u);
    var login := LoginBody(body.email, body.password);
    assert users'[newId].email == Some(ToLower(login.email.value));
    assert bcrypt.compare(body.password.value, users'[newId].password.value);
    var r := Login(bcrypt, jwt, users', login);
    var found := FindByEmail(users', ToLower(login.email.value));
    assert found == Some(users'[newId]);
  }

  // ---------------------------------------------------------------------------
  // protect

  /** The parts of a request the middleware reads and writes. */
  datatype Request = Request(authorization: Option<string>, user: Option<User>)

  /** A call of `next`: the request as passed on, and the error argument. */
  datatype Next = Next(req: Request, err: Option<Failure>)

  /** `header.split(' ')[1]`, undefined when there is no second field. */
  function SecondField(h: string): (r: Option<string>)
    ensures r.Some? <==> ' ' in h
    ensures r.Some? ==> ' ' !in r.value
  {
    var fields := Split(h, ' ');
    assert |fields| >= 2 <==> ' ' in h by {
      if ' ' in h {
        var i := IndexOf(h, ' ');
        assert h == h[..i] + [' '] + h[i + 1..];
        SplitAfterField(h[..i], ' ', h[i + 1..]);
      } else {
        SplitWithoutSeparator(h, ' ');
      }
    }
    if |fields| >= 2 then Some(fields[1]) else None
  }

  /** The token `protect` goes on with: the header must be truthy and start
      with `Bearer` (case-sensitive, nothing required after it), the token is
      the second space-separated field, and an undefined or empty token counts
      as none. */
  function BearerToken(authorization: Option<string>): (token: Option<string>)
    ensures token.Some? ==> authorization.Some? && StartsWith(authorization.value, Scheme)
    ensures token.Some? ==> |token.value| > 0 && ' ' !in token.value
  {
    match authorization
    case None => None
    case Some(h) =>
      if |h| > 0 && StartsWith(h, Scheme) then
        match SecondField(h)
        case Some(t) => if |t| > 0 then Some(t) else None
        case None => None
      else None
  }

  /** The same extraction stated by position: the run of non-space characters
      right after the first space. */
  function ReferenceBearerToken(h: string): Option<string> {
    if StartsWith(h, Scheme) && ' ' in h then
      var t := TakeUntil(h[IndexOf(h, ' ') + 1..], ' ');
      if t == "" then None else Some(t)
    else None
  }

  lemma BearerTokenMatchesReference(h: string)
    ensures BearerToken(Some(h)) == ReferenceBearerToken(h)
  {
    if StartsWith(h, Scheme) {
      if ' ' !in h {
        SplitWithoutSeparator(h, ' ');
      } else {
        var i := IndexOf(h, ' ');
        assert h == h[..i] + [' '] + h[i + 1..];
        SplitAfterField(h[..i], ' ', h[i + 1..]);
        SplitFirstField(h[i + 1..], ' ');
      }
    }
  }

  /** Any header `p + " " + t + rest` that starts with `Bearer`, where `p` and
      `t` hold no space and `rest` is empty or starts with one, yields `t`. */
  lemma BearerTokenOf(p: string, t: string, rest: string)
    requires StartsWith(p + " " + t + rest, Scheme)
    requires ' ' !in p && ' ' !in t && |t| > 0
    requires rest == "" || rest[0] == ' '
    ensures BearerToken(Some(p + " " + t + rest)) == Some(t)
  {
    var h := p + " " + t + rest;
    assert h == p + [' '] + (t + rest);
    SplitAfterField(p, ' ', t + rest);
    if rest == "" {
      assert t + rest == t;
      SplitWithoutSeparator(t, ' ');
    } else {
      assert t + rest == t + [' '] + rest[1..];
      SplitAfterField(t, ' ', rest[1..]);
    }
  }

  /** The malformed headers of the bearer scheme: none yields a token. */
  lemma BearerTokenRejectsMalformed()
    ensures BearerToken(None) == None
    ensures BearerToken(Some("")) == None
    ensures BearerToken(Some("Bearer")) == None
    ensures BearerToken(Some("BearerX")) == None
    ensures BearerToken(Some("bearer abc")) == None
  {
    assert !StartsWith("bearer abc", Scheme) by {
      assert "bearer abc"[0] != Scheme[0];
    }
    SplitWithoutSeparator("Bearer", ' ');
    SplitWithoutSeparator("BearerX", ' ');
  }

  /** A space right after the scheme leaves an empty second field, so
      `Bearer ` yields no token. */
  lemma BearerTokenRejectsTrailingSpace()
    ensures BearerToken(Some("Bearer ")) == None
  {
    assert "Bearer " == "Bearer" + [' '] + "";
    SplitAfterField("Bearer", ' ', "");
    assert Split("", ' ') == [""];
  }

  /** Two spaces after the scheme leave an empty second field, so the token
      after them is never reached. */
  lemma BearerTokenRejectsDoubleSpace()
    ensures BearerToken(Some("Bearer  abc")) == None
  {
    assert "Bearer  abc" == "Bearer" + [' '] + " abc";
    SplitAfterField("Bearer", ' ', " abc");
    assert " abc" == "" + [' '] + "abc";
    SplitAfterField("", ' ', "abc");
  }

  /** The well-formed header yields its token; so does any scheme prefix such
      as `BearerX` once a space follows it. */
  lemma BearerTokenAcceptsPrefixedScheme()
    ensures BearerToken(Some("Bearer abc")) == Some("abc")
    ensures BearerToken(Some("BearerX abc")) == Some("abc")
  {
    BearerTokenOf("Bearer", "abc", "");
    assert "Bearer" + " " + "abc" + "" == "Bearer abc";
    BearerTokenOf("BearerX", "abc", "");
    assert "BearerX" + " " + "abc" + "" == "BearerX abc";
  }

  /** `protect`: extract the token (401 when there is none), verify it (a
      verification error is passed on as thrown), look up `decoded.id` with the
      default projection (401 when the user is gone), and on success attach the
      user to the request and call `next()` with no error. */
  function Protect(jwt: Jwt, users: map<Id, User>, req: Request): (r: Next)
    ensures r.err.Some? ==> r.req == req
    ensures BearerToken(req.authorization).None? ==> r.err == Some(AppError(NotLoggedIn, 401))
    ensures r.err.None? <==>
      && BearerToken(req.authorization).Some?
      && jwt.verify(BearerToken(req.authorization).value).Some?
      && jwt.verify(BearerToken(req.authorization).value).value in users
    ensures r.err.None? ==>
      r.req == req.(user := Some(DefaultView(users[jwt.verify(BearerToken(req.authorization).value).value])))
  {
    match BearerToken(req.authorization)
    case None => Next(req, Some(AppError(NotLoggedIn, 401)))
    case Some(token) =>
      match jwt.verify(token)
      case None => Next(req, Some(Thrown(TokenError)))
      case Some(id) =>
        if id !in users then Next(req, Some(AppError(UserGone, 401)))
        else Next(req.(user := Some(DefaultView(users[id]))), None)
  }

  /** Without a usable token the answer is fixed before verify or the store are
      consulted: it is the same whatever they are. */
  lemma ProtectWithoutToken(req: Request)
    requires BearerToken(req.authorization).None?
    ensures forall jwt: Jwt, users: map<Id, User> :: Protect(jwt, users, req) == Next(req, Some(AppError(NotLoggedIn, 401)))
  {
  }

  /** A rejected token is passed on as a thrown error and grants nothing. */
  lemma ProtectRejectsBadToken(jwt: Jwt, users: map<Id, User>, req: Request)
    requires BearerToken(req.authorization).Some? && jwt.verify(BearerToken(req.authorization).value).None?
    ensures Protect(jwt, users, req) == Next(req, Some(Thrown(TokenError)))
  {
  }

  /** The store is consulted at `decoded.id` only: two stores that agree there
      give the same answer, and a missing user gives 401. */
  lemma ProtectLooksUpDecodedId(jwt: Jwt, users1: map<Id, User>, users2: map<Id, User>, req: Request, id: Id)
    requires BearerToken(req.authorization).Some? && jwt.verify(BearerToken(req.authorization).value) == Some(id)
    requires id in users1 <==> id in users2
    requires id in users1 ==> users1[id] == users2[id]
    ensures Protect(jwt, users1, req) == Protect(jwt, users2, req)
    ensures id !in users1 ==> Protect(jwt, users1, req) == Next(req, Some(AppError(UserGone, 401)))
  {
  }

  /** A token issued at login, presented as `Bearer <token>`, grants access as
      the user it was issued for, with the password not selected. */
  lemma LoginThenProtect(bcrypt: Bcrypt, isEmail: string -> bool, jwt: Jwt, users: map<Id, User>, body: LoginBody)
    requires UserStoreOk(isEmail, users)
    requires TokensRoundTrip(jwt) && CompactTokens(jwt)
    requires Login(bcrypt, jwt, users, body).Success?
    ensures var token := Login(bcrypt, jwt, users, body).value.token;
            var r := Protect(jwt, users, Request(Some("Bearer " + token), None));
            && r.err.None? && r.req.user.Some?
            && r.req.user.value.email == Some(ToLower(body.email.value)) && r.req.user.value.password.None?
  {
    var reply := Login(bcrypt, jwt, users, body).value;
    var id :| id in users && users[id].email == Some(ToLower(body.email.value)) && reply == CreateSendToken(jwt, users[id], 200);
    var token := reply.token;
    assert token == jwt.sign(id);
    assert |token| > 0 && ' ' !in token;
    BearerTokenOf("Bearer", token, "");
    assert "Bearer" + " " + token + "" == "Bearer " + token;
    assert jwt.verify(token) == Some(id);
  }
}

=== FILE: book_controller.dfy ===
/** The book handlers over the books collection, a map from id to document.
    Every handler runs after `protect` has admitted the request. */
module BookController {
  import opened Wrappers
  import opened Api
  import opened Strings
  import opened BookModel

  /** A successful JSON reply. A document is sent with its `_id`. */
  datatype Reply =
    | One(statusCode: nat, id: Id, book: Book)
    | Many(statusCode: nat, results: nat, books: seq<(Id, Book)>)
    | NoContent(statusCode: nat)

  const NoBook: string := "No book found with that ID"
  const NoDocument: string := "No document found with that ID"

  /** `getAllBooks`: the list query (filter, sort, field limiting, paging) is
      the opaque `query`; `results` counts what is sent back. */
  function GetAllBooks(store: map<Id, Book>, query: map<Id, Book> -> seq<(Id, Book)>): (r: Reply)
    ensures r.Many? && r.statusCode == 200
    ensures r.books == query(store) && r.results == |r.books|
  {
    var books := query(store);
    Many(200, |books|, books)
  }

  /** `getOneBook`: the stored document, or 404. */
  function GetOneBook(store: map<Id, Book>, id: Id): (r: Result<Reply, Failure>)
    ensures r.Failure? <==> id !in store
    ensures r.Failure? ==> r.error == AppError(NoBook, 404)
    ensures r.Success? ==> r.value == One(200, id, store[id])
  {
    if id in store then Success(One(200, id, store[id]))
    else Failure(AppError(NoBook, 404))
  }

  /** `createBook`: validate the body, let the unique index refuse a taken
      title, otherwise insert under the fresh id and answer 201. */
  function CreateBook(casts: Casts, store: map<Id, Book>, newId: Id, input: BookInput): (r: Outcome<map<Id, Book>, Reply>)
    requires newId !in store
    ensures r.reply.Failure? ==> r.store == store
    ensures BuildBook(casts, input).Failure? ==> r.reply == Failure(Thrown(ValidationError))
    ensures BuildBook(casts, input).Success? && TitleTakenByOther(store, BuildBook(casts, input).value.title, newId)
            ==> r.reply == Failure(Thrown(DuplicateKey))
    ensures r.reply.Success? <==>
      BuildBook(casts, input).Success? && !TitleTakenByOther(store, BuildBook(casts, input).value.title, newId)
    ensures r.reply.Success? ==>
      && r.store.Keys == store.Keys + {newId}
      && (forall id :: id in store ==> r.store[id] == store[id])
      && r.store[newId] == BuildBook(casts, input).value
      && r.reply.value == One(201, newId, r.store[newId])
  {
    match BuildBook(casts, input)
    case Failure(_) => Outcome(store, Failure(Thrown(ValidationError)))
    case Success(book) =>
      if TitleTakenByOther(store, book.title, newId) then Outcome(store, Failure(Thrown(DuplicateKey)))
      else Outcome(store[newId := book], Success(One(201, newId, book)))
  }

  /** `updateBook` (`findByIdAndUpdate` with `new` and `runValidators`): the
      patch is validated first, then an absent id gives 404, the unique index
      may refuse the new title, and otherwise the post-update document is
      stored and returned. */
  function UpdateBook(casts: Casts, store: map<Id, Book>, id: Id, patch: BookInput): (r: Outcome<map<Id, Book>, Reply>)
    ensures r.reply.Failure? ==> r.store == store
    ensures !PresentAccepted(casts, patch) ==> r.reply == Failure(Thrown(ValidationError))
    ensures PresentAccepted(casts, patch) && id !in store ==> r.reply == Failure(AppError(NoBook, 404))
    ensures PresentAccepted(casts, patch) && id in store
            && TitleTakenByOther(store, PatchBook(casts, store[id], patch).value.title, id)
            ==> r.reply == Failure(Thrown(DuplicateKey))
    ensures r.reply.Success? <==>
      && id in store && PresentAccepted(casts, patch)
      && !TitleTakenByOther(store, PatchBook(casts, store[id], patch).value.title, id)
    ensures r.reply.Success? ==>
      && r.store.Keys == store.Keys
      && (forall other :: other in store && other != id ==> r.store[other] == store[other])
      && r.store[id] == PatchBook(casts, store[id], patch).value
      && r.reply.value == One(200, id, r.store[id])
  {
    if !PresentAccepted(casts, patch) then Outcome(store, Failure(Thrown(ValidationError)))
    else if id !in store then Outcome(store, Failure(AppError(NoBook, 404)))
    else
      var book := PatchBook(casts, store[id], patch).value;
      if TitleTakenByOther(store, book.title, id) then Outcome(store, Failure(Thrown(DuplicateKey)))
      else Outcome(store[id := book], Success(One(200, id, book)))
  }

  /** `deleteBook`: remove exactly the given id and answer 204, or 404. */
  function DeleteBook(store: map<Id, Book>, id: Id): (r: Outcome<map<Id, Book>, Reply>)
    ensures id !in store ==> r.store == store && r.reply == Failure(AppError(NoDocument, 404))
    ensures id in store ==> r.reply == Success(NoContent(204))
    ensures id in store ==> r.store.Keys == store.Keys - {id} && |r.store| == |store| - 1
    ensures forall other :: other in r.store ==> other in store && r.store[other] == store[other]
  {
    if id in store then Outcome(store - {id}, Success(NoContent(204)))
    else Outcome(store, Failure(AppError(NoDocument, 404)))
  }

  // ---------------------------------------------------------------------------
  // The collection invariant, and what later reads see

  /** Creation keeps titles unique and every stored book valid. */
  lemma CreatePreservesStore(casts: Casts, store: map<Id, Book>, newId: Id, input: BookInput)
    requires newId !in store && BookStoreOk(store)
    ensures BookStoreOk(CreateBook(casts, store, newId, input).store)
  {
  }

  /** Updating keeps titles unique and every stored book valid. */
  lemma UpdatePreservesStore(casts: Casts, store: map<Id, Book>, id: Id, patch: BookInput)
    requires BookStoreOk(store)
    ensures BookStoreOk(UpdateBook(casts, store, id, patch).store)
  {
  }

  /** Deleting keeps titles unique and every stored book valid. */
  lemma DeletePreservesStore(store: map<Id, Book>, id: Id)
    requires BookStoreOk(store)
    ensures BookStoreOk(DeleteBook(store, id).store)
  {
  }

  /** After a successful creation the new id reads back as the created book,
      and a second creation with the same title is refused by the index. */
  lemma CreateThenReadAndDuplicate(casts: Casts, store: map<Id, Book>, newId: Id, secondId: Id, input: BookInput, again: BookInput)
    requires newId !in store && secondId !in store && secondId != newId
    requires CreateBook(casts, store, newId, input).reply.Success?
    requires BuildBook(casts, again).Success? && BuildBook(casts, again).value.title == BuildBook(casts, input).value.title
    ensures var r := CreateBook(casts, store, newId, input);
            && GetOneBook(r.store, newId) == Success(One(200, newId, BuildBook(casts, input).value))
            && CreateBook(casts, r.store, secondId, again) == Outcome(r.store, Failure(Thrown(DuplicateKey)))
  {
    var r := CreateBook(casts, store, newId, input);
    assert r.store[newId].title == BuildBook(casts, again).value.title;
  }

  /** After a successful update, reading the id gives the post-update
      document: each path the patch sets holds the patch's validated value,
      and every other path keeps its old value. */
  lemma UpdateThenRead(casts: Casts, store: map<Id, Book>, id: Id, patch: BookInput)
    requires UpdateBook(casts, store, id, patch).reply.Success?
    ensures var r := UpdateBook(casts, store, id, patch);
            && GetOneBook(r.store, id) == r.reply
            && GetOneBook(r.store, id) == Success(One(200, id, r.store[id]))
    ensures var after := UpdateBook(casts, store, id, patch).store[id];
            && (patch.title.Some? ==> after.title == Trim(patch.title.value))
            && (patch.title.None? ==> after.title == store[id].title)
            && (patch.pageCount.Some? ==> Some(after.pageCount) == CheckPageCount(casts, patch.pageCount.value))
            && (patch.pageCount.None? ==> after.pageCount == store[id].pageCount)
            && (patch.shortDescription.Some? ==> after.shortDescription == patch.shortDescription.value)
            && (patch.shortDescription.None? ==> after.shortDescription == store[id].shortDescription)
            && (patch.longDescription.Some? ==> after.longDescription == patch.longDescription.value)
            && (patch.longDescription.None? ==> after.longDescription == store[id].longDescription)
            && (patch.status.Some? ==> Some(after.status) == CheckStatus(patch.status.value))
            && (patch.status.None? ==> after.status == store[id].status)
            && (patch.authors.Some? ==> after.authors == patch.authors.value)
            && (patch.authors.None? ==> after.authors == store[id].authors)
            && (patch.thumbnailUrl.Some? ==> after.thumbnailUrl == patch.thumbnailUrl)
            && (patch.thumbnailUrl.None? ==> after.thumbnailUrl == store[id].thumbnailUrl)
            && (patch.publishedDate.Some? ==> Some(after.publishedDate) == CheckPublishedDate(casts, patch.publishedDate.value))
            && (patch.publishedDate.None? ==> after.publishedDate == store[id].publishedDate)
  {
  }

  /** The update of the book tests: a patch setting only `title` to
      `updated title` answers 200 and stores the old document with just that
      title replaced, which a later read returns. */
  lemma UpdateTitleThenRead(casts: Casts, store: map<Id, Book>, id: Id)
    requires id in store
    requires !TitleTakenByOther(store, "updated title", id)
    ensures var r := UpdateBook(casts, store, id, BookInput(Some("updated title"), None, None, None, None, None, None, None));
            && r.reply == Success(One(200, id, store[id].(title := "updated title")))
            && GetOneBook(r.store, id) == Success(One(200, id, store[id].(title := "updated title")))
  {
    TrimTrimmed("updated title");
  }

  /** The creation of the book tests, with its string date: whatever valid
      date the cast makes of `11.05.2009`, the book is
      created with status 201, and reading the id its reply carries gives
      back the title it was sent. */
  lemma CreateTestBookThenRead(casts: Casts, store: map<Id, Book>, newId: Id, date: int)
    requires newId !in store
    requires casts.date("11.05.2009") == Some(date)
    requires ValidTimeValue(date)
    requires !TitleTakenByOther(store, "test book creation", newId)
    ensures var r := CreateBook(casts, store, newId,
              BookInput(Some("test book creation"), Some(Num(200)), Some(Str("11.05.2009")), Some("somerandimgurl.jpg"),
                        Some("test book short description"), Some("test book long description"), Some("PUBLISHED"),
                        Some(["test", "test2", "test3"])));
            && r.reply.Success? && r.reply.value.statusCode == 201
            && r.store[newId] == Book("test book creation", 200, Some(date), Some("somerandimgurl.jpg"),
                                      "test book short description", "test book long description", Published,
                                      ["test", "test2", "test3"])
            && r.reply.value.id == newId
            && GetOneBook(r.store, r.reply.value.id).value.book.title == "test book creation"
  {
    TrimTrimmed("test book creation");
  }

  /** After a deletion the id reads as 404 and every other id reads as before. */
  lemma DeleteThenRead(store: map<Id, Book>, id: Id, other: Id)
    requires id in store && other != id
    ensures GetOneBook(DeleteBook(store, id).store, id) == Failure(AppError(NoBook, 404))
    ensures GetOneBook(DeleteBook(store, id).store, other) == GetOneBook(store, other)
  {
  }
}

=== FILE: book_model.dfy ===
/** The book schema: how each path of a request body is cast and validated,
    both for a whole new document and for a partial update, and the unique
    index on `title`. */
module BookModel {
  import opened Wrappers
  import opened Strings
  import opened Api

  /** A JSON scalar as it arrives in a request body for a Number or Date path. */
  datatype Json = Num(n: int) | Str(s: string)

  datatype Status = Published | NotPublished

  /** A stored book. Dates are epoch milliseconds. */
  datatype Book = Book(
    title: string,
    pageCount: int,
    publishedDate: Option<int>,
    thumbnailUrl: Option<string>,
    shortDescription: string,
    longDescription: string,
    status: Status,
    authors: seq<string>)

  /** A request body: each schema path, `None` when the body does not set it.
      Properties outside the schema are dropped by the library and not shown. */
  datatype BookInput = BookInput(
    title: Option<string>,
    pageCount: Option<Json>,
    publishedDate: Option<Json>,
    thumbnailUrl: Option<string>,
    shortDescription: Option<string>,
    longDescription: Option<string>,
    status: Option<string>,
    authors: Option<seq<string>>)

  /** The schema paths a validation error can name. */
  datatype BookPath = TitlePath | PageCountPath | PublishedDatePath | ShortDescriptionPath | LongDescriptionPath | StatusPath

  /** Mongoose's casts from a string, treated as opaque: `None` is a cast error. */
  datatype Casts = Casts(number: string -> Option<int>, date: string -> Option<int>)

  const MinTitleLength: nat := 1
  const MaxTitleLength: nat := 50
  const MaxShortDescriptionLength: nat := 100
  /** The largest magnitude of a valid time value, in milliseconds from the
      epoch (section 21.4.1.1 of ECMA-262): beyond it `new Date(t)` is an
      invalid date, which the Date cast rejects. */
  const MaxTimeValue: int := 8_640_000_000_000_000
  const PublishedText: string := "PUBLISHED"
  const NotPublishedText: string := "NOT PUBLISHED"

  // ---------------------------------------------------------------------------
  // One path at a time: the stored value, or None when the path is rejected.

  /** `title`: trimmed, then required with length in [1, 50]. */
  function CheckTitle(raw: string): (r: Option<string>)
    ensures r.Some? ==> MinTitleLength <= |r.value| <= MaxTitleLength && Trimmed(r.value)
    ensures r.Some? <==> MinTitleLength <= |Trim(raw)| <= MaxTitleLength
  {
    var t := Trim(raw);
    TrimIsInfix(raw);
    if MinTitleLength <= |t| <= MaxTitleLength then Some(t) else None
  }

  /** `pageCount`: a number, or a string the Number cast accepts; the empty
      string casts to null, which `required` rejects. */
  function CheckPageCount(casts: Casts, v: Json): (r: Option<int>)
    ensures v.Num? ==> r == Some(v.n)
    ensures v.Str? ==> r == (if v.s == "" then None else casts.number(v.s))
  {
    match v
    case Num(n) => Some(n)
    case Str(s) => if s == "" then None else casts.number(s)
  }

  /** Whether `t` is a time value a JavaScript `Date` can hold. */
  predicate ValidTimeValue(t: int) {
    -MaxTimeValue <= t <= MaxTimeValue
  }

  /** `publishedDate`: optional; the empty string casts to null, and a number
      or a parsed string outside the time-value range is an invalid date. */
  function CheckPublishedDate(casts: Casts, v: Json): (r: Option<Option<int>>)
    ensures r.None? <==>
      || (v.Num? && !ValidTimeValue(v.n))
      || (v.Str? && v.s != "" && (casts.date(v.s).None? || !ValidTimeValue(casts.date(v.s).value)))
    ensures v.Num? && ValidTimeValue(v.n) ==> r == Some(Some(v.n))
    ensures v == Str("") ==> r == Some(None)
    ensures v.Str? && v.s != "" && r.Some? ==> r.value == casts.date(v.s)
    ensures r.Some? && r.value.Some? ==> ValidTimeValue(r.value.value)
  {
    match v
    case Num(n) => if ValidTimeValue(n) then Some(Some(n)) else None
    case Str(s) =>
      if s == "" then Some(None)
      else match casts.date(s)
        case Some(d) => if ValidTimeValue(d) then Some(Some(d)) else None
        case None => None
  }

  /** `shortDescription`: required, at most 100 characters. */
  function CheckShortDescription(raw: string): (r: Option<string>)
    ensures r.Some? <==> 0 < |raw| <= MaxShortDescriptionLength
    ensures r.Some? ==> r.value == raw
  {
    if 0 < |raw| <= MaxShortDescriptionLength then Some(raw) else None
  }

  /** `longDescription`: required. */
  function CheckLongDescription(raw: string): (r: Option<string>)
    ensures r.Some? <==> 0 < |raw|
    ensures r.Some? ==> r.value == raw
  {
    if 0 < |raw| then Some(raw) else None
  }

  /** `status`: one of the two enum values, exactly as spelled. */
  function CheckStatus(raw: string): (r: Option<Status>)
    ensures r.Some? <==> raw == PublishedText || raw == NotPublishedText
  {
    if raw == PublishedText then Some(Published)
    else if raw == NotPublishedText then Some(NotPublished)
    else None
  }

  // ---------------------------------------------------------------------------
  // Whole documents

  /** What every stored book satisfies: each of its String paths is a value
      its validator accepts unchanged, and its date is a valid time value. */
  predicate ValidBook(b: Book): (valid: bool)
    ensures valid ==> CheckTitle(b.title) == Some(b.title)
    ensures valid <==> CheckShortDescription(b.shortDescription).Some? && CheckLongDescription(b.longDescription).Some?
                       && CheckTitle(b.title) == Some(b.title)
                       && (b.publishedDate.Some? ==> ValidTimeValue(b.publishedDate.value))
  {
    if && MinTitleLength <= |b.title| <= MaxTitleLength && Trimmed(b.title)
       && 0 < |b.shortDescription| <= MaxShortDescriptionLength
       && 0 < |b.longDescription|
       && (b.publishedDate.Some? ==> ValidTimeValue(b.publishedDate.value))
    then
      TrimTrimmed(b.title);
      true
    else
      false
  }

  /** Every path `input` sets is accepted by its validator. */
  predicate PresentAccepted(casts: Casts, input: BookInput) {
    && (input.title.Some? ==> CheckTitle(input.title.value).Some?)
    && (input.pageCount.Some? ==> CheckPageCount(casts, input.pageCount.value).Some?)
    && (input.publishedDate.Some? ==> CheckPublishedDate(casts, input.publishedDate.value).Some?)
    && (input.shortDescription.Some? ==> CheckShortDescription(input.shortDescription.value).Some?)
    && (input.longDescription.Some? ==> CheckLongDescription(input.longDescription.value).Some?)
    && (input.status.Some? ==> CheckStatus(input.status.value).Some?)
  }

  /** Every required path is set. */
  predicate Complete(input: BookInput) {
    input.title.Some? && input.pageCount.Some? && input.shortDescription.Some?
    && input.longDescription.Some? && input.status.Some?
  }

  const AllPaths: set<BookPath> :=
    {TitlePath, PageCountPath, PublishedDatePath, ShortDescriptionPath, LongDescriptionPath, StatusPath}

  /** Whether `input` sets path `p` to a value its validator rejects. */
  predicate Rejects(casts: Casts, input: BookInput, p: BookPath) {
    match p
    case TitlePath => input.title.Some? && CheckTitle(input.title.value).None?
    case PageCountPath => input.pageCount.Some? && CheckPageCount(casts, input.pageCount.value).None?
    case PublishedDatePath => input.publishedDate.Some? && CheckPublishedDate(casts, input.publishedDate.value).None?
    case ShortDescriptionPath => input.shortDescription.Some? && CheckShortDescription(input.shortDescription.value).None?
    case LongDescriptionPath => input.longDescription.Some? && CheckLongDescription(input.longDescription.value).None?
    case StatusPath => input.status.Some? && CheckStatus(input.status.value).None?
  }

  /** The paths of `input` whose value is present and rejected. */
  function PresentErrors(casts: Casts, input: BookInput): (errors: set<BookPath>)
    ensures errors == {} <==> PresentAccepted(casts, input)
  {
    var errors := set p | p in AllPaths && Rejects(casts, input, p);
    assert Rejects(casts, input, TitlePath) ==> TitlePath in errors;
    assert Rejects(casts, input, PageCountPath) ==> PageCountPath in errors;
    assert Rejects(casts, input, PublishedDatePath) ==> PublishedDatePath in errors;
    assert Rejects(casts, input, ShortDescriptionPath) ==> ShortDescriptionPath in errors;
    assert Rejects(casts, input, LongDescriptionPath) ==> LongDescriptionPath in errors;
    assert Rejects(casts, input, StatusPath) ==> StatusPath in errors;
    errors
  }

  /** The required paths `input` leaves out. */
  function MissingPaths(input: BookInput): (missing: set<BookPath>)
    ensures missing == {} <==> Complete(input)
  {
    var missing :=
      (if input.title.None? then {TitlePath} else {})
      + (if input.pageCount.None? then {PageCountPath} else {})
      + (if input.shortDescription.None? then {ShortDescriptionPath} else {})
      + (if input.longDescription.None? then {LongDescriptionPath} else {})
      + (if input.status.None? then {StatusPath} else {});
    assert input.title.None? ==> TitlePath in missing;
    assert input.pageCount.None? ==> PageCountPath in missing;
    assert input.shortDescription.None? ==> ShortDescriptionPath in missing;
    assert input.longDescription.None? ==> LongDescriptionPath in missing;
    assert input.status.None? ==> StatusPath in missing;
    missing
  }

  /** A cast and validated body: each path it sets, with its stored value. */
  datatype Update = Update(
    title: Option<string>,
    pageCount: Option<int>,
    publishedDate: Option<Option<int>>,
    thumbnailUrl: Option<string>,
    shortDescription: Option<string>,
    longDescription: Option<string>,
    status: Option<Status>,
    authors: Option<seq<string>>)

  /** What the validators guarantee of every path an update sets. */
  predicate UpdateValid(u: Update) {
    && (u.title.Some? ==> MinTitleLength <= |u.title.value| <= MaxTitleLength && Trimmed(u.title.value))
    && (u.shortDescription.Some? ==> 0 < |u.shortDescription.value| <= MaxShortDescriptionLength)
    && (u.longDescription.Some? ==> 0 < |u.longDescription.value|)
    && (u.publishedDate.Some? && u.publishedDate.value.Some? ==> ValidTimeValue(u.publishedDate.value.value))
  }

  /** Whether the update sets exactly the paths the body sets. */
  predicate SetsSamePaths(u: Update, input: BookInput) {
    && (u.title.Some? <==> input.title.Some?)
    && (u.pageCount.Some? <==> input.pageCount.Some?)
    && (u.publishedDate.Some? <==> input.publishedDate.Some?)
    && (u.thumbnailUrl.Some? <==> input.thumbnailUrl.Some?)
    && (u.shortDescription.Some? <==> input.shortDescription.Some?)
    && (u.longDescription.Some? <==> input.longDescription.Some?)
    && (u.status.Some? <==> input.status.Some?)
    && (u.authors.Some? <==> input.authors.Some?)
  }

  /** Cast and validate the paths `input` sets; absent paths stay absent. */
  function CastInput(casts: Casts, input: BookInput): (r: Result<Update, set<BookPath>>)
    ensures r.Failure? <==> !PresentAccepted(casts, input)
    ensures r.Failure? ==> r.error == PresentErrors(casts, input)
    ensures r.Success? ==> UpdateValid(r.value) && SetsSamePaths(r.value, input)
    ensures r.Success? && input.title.Some? ==> r.value.title == CheckTitle(input.title.value)
    ensures r.Success? && input.pageCount.Some? ==> r.value.pageCount == CheckPageCount(casts, input.pageCount.value)
    ensures r.Success? && input.publishedDate.Some? ==> r.value.publishedDate == CheckPublishedDate(casts, input.publishedDate.value)
    ensures r.Success? ==> r.value.thumbnailUrl == input.thumbnailUrl && r.value.authors == input.authors
    ensures r.Success? && input.shortDescription.Some? ==> r.value.shortDescription == input.shortDescription
    ensures r.Success? && input.longDescription.Some? ==> r.value.longDescription == input.longDescription
    ensures r.Success? && input.status.Some? ==> r.value.status == CheckStatus(input.status.value)
  {
    if !PresentAccepted(casts, input) then Failure(PresentErrors(casts, input))
    else Success(Update(
      if input.title.Some? then CheckTitle(input.title.value) else None,
      if input.pageCount.Some? then CheckPageCount(casts, input.pageCount.value) else None,
      if input.publishedDate.Some? then CheckPublishedDate(casts, input.publishedDate.value) else None,
      input.thumbnailUrl,
      if input.shortDescription.Some? then CheckShortDescription(input.shortDescription.value) else None,
      if input.longDescription.Some? then CheckLongDescription(input.longDescription.value) else None,
      if input.status.Some? then CheckStatus(input.status.value) else None,
      input.authors))
  }

  function Pick<T>(v: Option<T>, current: T): T {
    match v
    case Some(x) => x
    case None => current
  }

  /** `current` with every path `u` sets replaced and every other path kept. */
  function Apply(current: Book, u: Update): (r: Book)
    ensures u.title.Some? ==> r.title == u.title.value
    ensures u.pageCount.Some? ==> r.pageCount == u.pageCount.value
    ensures u.publishedDate.Some? ==> r.publishedDate == u.publishedDate.value
    ensures u.thumbnailUrl.Some? ==> r.thumbnailUrl == u.thumbnailUrl
    ensures u.shortDescription.Some? ==> r.shortDescription == u.shortDescription.value
    ensures u.longDescription.Some? ==> r.longDescription == u.longDescription.value
    ensures u.status.Some? ==> r.status == u.status.value
    ensures u.authors.Some? ==> r.authors == u.authors.value
    ensures u.title.None? ==> r.title == current.title
    ensures u.pageCount.None? ==> r.pageCount == current.pageCount
    ensures u.publishedDate.None? ==> r.publishedDate == current.publishedDate
    ensures u.thumbnailUrl.None? ==> r.thumbnailUrl == current.thumbnailUrl
    ensures u.shortDescription.None? ==> r.shortDescription == current.shortDescription
    ensures u.longDescription.None? ==> r.longDescription == current.longDescription
    ensures u.status.None? ==> r.status == current.status
    ensures u.authors.None? ==> r.authors == current.authors
    ensures ValidBook(current) && UpdateValid(u) ==> ValidBook(r)
  {
    Book(
      Pick(u.title, current.title),
      Pick(u.pageCount, current.pageCount),
      Pick(u.publishedDate, current.publishedDate),
      if u.thumbnailUrl.Some? then u.thumbnailUrl else current.thumbnailUrl,
      Pick(u.shortDescription, current.shortDescription),
      Pick(u.longDescription, current.longDescription),
      Pick(u.status, current.status),
      Pick(u.authors, current.authors))
  }

  /** The document every path of which is still undefined; `authors` is the
      empty array, as an array path defaults to one. */
  function Blank(): Book {
    Book("", 0, None, None, "", "", Published, [])
  }

  /** An update that sets every required path leaves nothing of the blank
      document that validation would reject. */
  lemma ApplyCompleteIsValid(u: Update)
    requires UpdateValid(u) && u.title.Some? && u.shortDescription.Some? && u.longDescription.Some?
    ensures ValidBook(Apply(Blank(), u))
  {
  }

  /** `new Book(body)` followed by validation: the document, or every rejected
      path. Absent optional paths stay undefined. */
  function BuildBook(casts: Casts, input: BookInput): (r: Result<Book, set<BookPath>>)
    ensures r.Failure? <==> !Complete(input) || !PresentAccepted(casts, input)
    ensures r.Failure? ==> r.error == MissingPaths(input) + PresentErrors(casts, input)
    ensures r.Success? ==> ValidBook(r.value)
    ensures r.Success? ==>
      && r.value.title == Trim(input.title.value)
      && Some(r.value.pageCount) == CheckPageCount(casts, input.pageCount.value)
      && r.value.publishedDate == (if input.publishedDate.Some? then CheckPublishedDate(casts, input.publishedDate.value).value else None)
      && r.value.thumbnailUrl == input.thumbnailUrl
      && r.value.shortDescription == input.shortDescription.value
      && r.value.longDescription == input.longDescription.value
      && Some(r.value.status) == CheckStatus(input.status.value)
      && r.value.authors == (if input.authors.Some? then input.authors.value else [])
  {
    var errors := MissingPaths(input) + PresentErrors(casts, input);
    if errors != {} then Failure(errors)
    else
      var u := CastInput(casts, input).value;
      ApplyCompleteIsValid(u);
      Success(Apply(Blank(), u))
  }

  /** An update with `runValidators`: only the paths the body sets are cast
      and validated, and only they change. */
  function PatchBook(casts: Casts, current: Book, patch: BookInput): (r: Result<Book, set<BookPath>>)
    ensures r.Failure? <==> !PresentAccepted(casts, patch)
    ensures r.Failure? ==> r.error == PresentErrors(casts, patch)
    ensures r.Success? ==> r.value == Apply(current, CastInput(casts, patch).value)
    ensures r.Success? && ValidBook(current) ==> ValidBook(r.value)
  {
    match CastInput(casts, patch)
    case Failure(errors) => Failure(errors)
    case Success(u) => Success(Apply(current, u))
  }

  /** The body that would set every path of `b` to its stored value. */
  function AsInput(b: Book): BookInput {
    BookInput(
      Some(b.title),
      Some(Num(b.pageCount)),
      match b.publishedDate case Some(d) => Some(Num(d)) case None => None,
      b.thumbnailUrl,
      Some(b.shortDescription),
      Some(b.longDescription),
      Some(match b.status case Published => PublishedText case NotPublished => NotPublishedText),
      Some(b.authors))
  }

  /** A title already trimmed and within bounds is accepted unchanged. */
  lemma CheckTitleKeepsTrimmed(t: string)
    requires MinTitleLength <= |t| <= MaxTitleLength && Trimmed(t)
    ensures CheckTitle(t) == Some(t)
  {
    TrimTrimmed(t);
  }

  /** Every path of a valid book's own body is present and accepted. */
  lemma AsInputAccepted(casts: Casts, b: Book)
    requires ValidBook(b)
    ensures Complete(AsInput(b)) && PresentAccepted(casts, AsInput(b))
  {
    CheckTitleKeepsTrimmed(b.title);
  }

  /** Casting a valid book's own body yields each of its fields. */
  lemma CastAsInput(casts: Casts, b: Book)
    requires ValidBook(b)
    ensures CastInput(casts, AsInput(b)) == Success(Update(Some(b.title), Some(b.pageCount),
              if b.publishedDate.Some? then Some(b.publishedDate) else None,
              b.thumbnailUrl, Some(b.shortDescription), Some(b.longDescription), Some(b.status), Some(b.authors)))
  {
    AsInputAccepted(casts, b);
    CheckTitleKeepsTrimmed(b.title);
    var input := AsInput(b);
    assert input.publishedDate.Some? ==> CheckPublishedDate(casts, input.publishedDate.value) == Some(b.publishedDate);
    assert CheckStatus(input.status.value) == Some(b.status);
  }

  /** Validation accepts every valid book: building from its own fields gives
      it back, whatever the casts. */
  lemma BuildBookRoundTrip(casts: Casts, b: Book)
    requires ValidBook(b)
    ensures BuildBook(casts, AsInput(b)) == Success(b)
  {
    AsInputAccepted(casts, b);
    CastAsInput(casts, b);
  }

  /** `publishedDate`, `thumbnailUrl` and `authors` are optional: leaving them
      out of an accepted body keeps it accepted, with those paths undefined
      (`authors` empty). */
  lemma OptionalPathsMayBeOmitted(casts: Casts, input: BookInput)
    requires BuildBook(casts, input).Success?
    ensures var lean := input.(publishedDate := None, thumbnailUrl := None, authors := None);
            && BuildBook(casts, lean).Success?
            && BuildBook(casts, lean).value
               == BuildBook(casts, input).value.(publishedDate := None, thumbnailUrl := None, authors := [])
  {
    var lean := input.(publishedDate := None, thumbnailUrl := None, authors := None);
    assert Complete(lean) && PresentAccepted(casts, lean);
  }

  /** An update that sets no path changes nothing. */
  lemma PatchNothing(casts: Casts, current: Book)
    ensures PatchBook(casts, current, BookInput(None, None, None, None, None, None, None, None)) == Success(current)
  {
  }

  /** An update setting every path replaces the document with what creating
      from the same body would build. */
  lemma PatchEverything(casts: Casts, current: Book, input: BookInput)
    requires input.title.Some? && input.pageCount.Some? && input.publishedDate.Some? && input.thumbnailUrl.Some?
    requires input.shortDescription.Some? && input.longDescription.Some? && input.status.Some? && input.authors.Some?
    ensures PatchBook(casts, current, input) == BuildBook(casts, input)
  {
    assert MissingPaths(input) == {};
    assert MissingPaths(input) + PresentErrors(casts, input) == PresentErrors(casts, input);
    if PresentAccepted(casts, input) {
      var u := CastInput(casts, input).value;
      assert Apply(current, u) == Apply(Blank(), u);
    }
  }

  /** Title trimming happens before the length check: surrounding white space
      is dropped, and a title of white space alone is rejected. */
  lemma TitleTrimmedBeforeCheck(raw: string)
    ensures CheckTitle(raw).Some? ==> CheckTitle(raw).value == Trim(raw)
    ensures AllSpace(raw) ==> CheckTitle(raw).None?
  {
    TrimIsInfix(raw);
  }

  /** The three rejected creations of the book tests, with their own bodies:
      a page count of `'text'`, an empty title and an unknown status. Each is
      rejected whatever the date cast makes of `11.05.2009`. */
  lemma BuildBookRejectsTestBodies(casts: Casts)
    requires casts.number("text").None?
    ensures BuildBook(casts, BookInput(Some("wrong book creation"), Some(Str("text")), Some(Str("11.05.2009")), Some("somerandimgurl.jpg"),
              Some("test book short description"), Some("test book long description"), Some("PUBLISHED"),
              Some(["test", "test2", "test3"]))).Failure?
    ensures BuildBook(casts, BookInput(Some(""), Some(Num(200)), Some(Str("11.05.2009")), Some("somerandimgurl.jpg"),
              Some("test book short description"), Some("test book long description"), Some("PUBLISHED"),
              Some(["test", "test2", "test3"]))).Failure?
    ensures BuildBook(casts, BookInput(Some("wrong book creation"), Some(Num(200)), Some(Str("11.05.2009")), Some("somerandimgurl.jpg"),
              Some("test book short description"), Some("test book long description"), Some("WRONG STATUS"),
              Some(["test", "test2", "test3"]))).Failure?
  {
    assert Trim("") == "";
    assert CheckStatus("WRONG STATUS").None?;
  }

  // ---------------------------------------------------------------------------
  // The collection

  /** Whether a book other than `self` already holds `title`. */
  predicate TitleTakenByOther(store: map<Id, Book>, title: string, self: Id) {
    exists id :: id in store && id != self && store[id].title == title
  }

  /** The `unique: true` index on `title`. */
  predicate UniqueTitles(store: map<Id, Book>) {
    forall a, b :: a in store && b in store && store[a].title == store[b].title ==> a == b
  }

  /** The invariant of the books collection. */
  predicate BookStoreOk(store: map<Id, Book>) {
    UniqueTitles(store) && forall id :: id in store ==> ValidBook(store[id])
  }
}

=== FILE: strings.dfy ===
/** The JavaScript string operations the handlers and schemas rely on:
    `startsWith`, `split` on a one-character separator, `trim` and
    `toLowerCase`, each with the properties the rest of the model uses. */
module Strings {
  import opened Wrappers

  /** `s.startsWith(prefix)`: case-sensitive prefix test. */
  predicate StartsWith(s: string, prefix: string): (b: bool)
    ensures b <==> exists rest :: s == prefix + rest
  {
    if |prefix| <= |s| && s[..|prefix|] == prefix then
      assert s == prefix + s[|prefix|..];
      true
    else
      false
  }

  /** Mongoose's `required` check for a String path: defined and non-empty. */
  predicate Required(v: Option<string>) {
    v.Some? && |v.value| > 0
  }

  // ---------------------------------------------------------------------------
  // split

  /** `s.split(sep)` for a one-character separator: the maximal separator-free
      runs of `s`, in order; two adjacent separators give an empty field and the
      empty string gives one empty field. */
  function Split(s: string, sep: char): (fields: seq<string>)
    ensures |fields| >= 1
    ensures forall i :: 0 <= i < |fields| ==> sep !in fields[i]
    decreases |s|
  {
    if |s| == 0 then [""]
    else
      var rest := Split(s[1..], sep);
      if s[0] == sep then [""] + rest
      else [[s[0]] + rest[0]] + rest[1..]
  }

  /** `fields.join(sep)`: the inverse of `Split`. */
  function Join(fields: seq<string>, sep: char): string
    decreases |fields|
  {
    if |fields| == 0 then ""
    else if |fields| == 1 then fields[0]
    else fields[0] + [sep] + Join(fields[1..], sep)
  }

  /** Joining the fields of a split gives back the original string. */
  lemma {:induction false} JoinSplit(s: string, sep: char)
    ensures Join(Split(s, sep), sep) == s
    decreases |s|
  {
    if |s| > 0 {
      var rest := Split(s[1..], sep);
      JoinSplit(s[1..], sep);
      if s[0] == sep {
        assert Split(s, sep) == [""] + rest;
        assert ([""] + rest)[1..] == rest;
        assert s == [sep] + s[1..];
      } else if |rest| == 1 {
        assert Split(s, sep) == [[s[0]] + rest[0]];
        assert s == [s[0]] + s[1..];
      } else {
        var fields := Split(s, sep);
        assert fields == [[s[0]] + rest[0]] + rest[1..];
        assert fields[1..] == rest[1..];
        assert Join(rest, sep) == rest[0] + [sep] + Join(rest[1..], sep);
        assert s == [s[0]] + s[1..];
      }
    }
  }

  /** A string without the separator is a single field. */
  lemma {:induction false} SplitWithoutSeparator(p: string, sep: char)
    requires sep !in p
    ensures Split(p, sep) == [p]
    decreases |p|
  {
    if |p| > 0 {
      assert sep !in p[1..] by {
        forall k | 0 <= k < |p[1..]| ensures p[1..][k] != sep {
          assert p[1..][k] == p[k + 1];
        }
      }
      SplitWithoutSeparator(p[1..], sep);
      assert [p[0]] + p[1..] == p;
    }
  }

  /** A separator-free prefix followed by a separator becomes the first field. */
  lemma {:induction false} SplitAfterField(p: string, sep: char, q: string)
    requires sep !in p
    ensures Split(p + [sep] + q, sep) == [p] + Split(q, sep)
    decreases |p|
  {
    var s := p + [sep] + q;
    if |p| == 0 {
      assert s[0] == sep && s[1..] == q;
    } else {
      assert sep !in p[1..] by {
        forall k | 0 <= k < |p[1..]| ensures p[1..][k] != sep {
          assert p[1..][k] == p[k + 1];
        }
      }
      SplitAfterField(p[1..], sep, q);
      assert s[0] == p[0] && s[1..] == p[1..] + [sep] + q;
      assert [p[0]] + p[1..] == p;
    }
  }

  /** The index of the first occurrence of `c` in `s`. */
  function IndexOf(s: string, c: char): (i: nat)
    requires c in s
    ensures i < |s| && s[i] == c && c !in s[..i]
    decreases |s|
  {
    if s[0] == c then 0
    else
      var j := IndexOf(s[1..], c);
      assert s[..j + 1] == [s[0]] + s[1..][..j];
      j + 1
  }

  /** The longest prefix of `s` that does not contain `c`. */
  function TakeUntil(s: string, c: char): (r: string)
    ensures c !in r && StartsWith(s, r)
    ensures |r| == |s| || s[|r|] == c
    decreases |s|
  {
    if |s| == 0 || s[0] == c then ""
    else
      var r' := TakeUntil(s[1..], c);
      assert s[..|r'| + 1] == [s[0]] + s[1..][..|r'|];
      [s[0]] + r'
  }

  /** The first field of a split is the longest separator-free prefix. */
  lemma {:induction false} SplitFirstField(s: string, sep: char)
    ensures Split(s, sep)[0] == TakeUntil(s, sep)
    decreases |s|
  {
    if |s| > 0 && s[0] != sep {
      SplitFirstField(s[1..], sep);
    }
  }

  // ---------------------------------------------------------------------------
  // trim

  /** The characters `String.prototype.trim` removes: the WhiteSpace and
      LineTerminator code points of ECMAScript (sections 12.2 and 12.3 of
      ECMA-262), including every Zs space separator. */
  predicate IsSpace(c: char) {
    || c == ' ' || c == '\t' || c == '\n' || c == '\r'
    || c == '\U{000B}' || c == '\U{000C}' || c == '\U{00A0}' || c == '\U{1680}'
    || ('\U{2000}' <= c <= '\U{200A}')
    || c == '\U{2028}' || c == '\U{2029}' || c == '\U{202F}' || c == '\U{205F}'
    || c == '\U{3000}' || c == '\U{FEFF}'
  }

  /** Neither end of `s` is white space. */
  predicate Trimmed(s: string) {
    |s| == 0 || (!IsSpace(s[0]) && !IsSpace(s[|s| - 1]))
  }

  predicate AllSpace(s: string) {
    forall i :: 0 <= i < |s| ==> IsSpace(s[i])
  }

  function TrimStart(s: string): string
    decreases |s|
  {
    if |s| > 0 && IsSpace(s[0]) then TrimStart(s[1..]) else s
  }

  function TrimEnd(s: string): string
    decreases |s|
  {
    if |s| > 0 && IsSpace(s[|s| - 1]) then TrimEnd(s[..|s| - 1]) else s
  }

  /** `s.trim()`: `s` without its leading and trailing white space. */
  function Trim(s: string): (r: string)
    ensures Trimmed(r) && |r| <= |s|
  {
    TrimStartDropsPrefix(s);
    TrimEndDropsSuffix(TrimStart(s));
    TrimEnd(TrimStart(s))
  }

  /** `TrimStart` drops a white-space prefix and stops at the first other character. */
  lemma {:induction false} TrimStartDropsPrefix(s: string)
    ensures var r := TrimStart(s);
            |r| <= |s| && r == s[|s| - |r|..] && AllSpace(s[..|s| - |r|]) && (|r| == 0 || !IsSpace(r[0]))
    decreases |s|
  {
    if |s| > 0 && IsSpace(s[0]) {
      TrimStartDropsPrefix(s[1..]);
      var r := TrimStart(s[1..]);
      assert s[..|s| - |r|] == [s[0]] + s[1..][..|s[1..]| - |r|];
    }
  }

  /** `TrimEnd` drops a white-space suffix and stops at the last other character. */
  lemma {:induction false} TrimEndDropsSuffix(s: string)
    ensures var r := TrimEnd(s);
            |r| <= |s| && r == s[..|r|] && AllSpace(s[|r|..]) && (|r| == 0 || !IsSpace(r[|r| - 1]))
    decreases |s|
  {
    if |s| > 0 && IsSpace(s[|s| - 1]) {
      TrimEndDropsSuffix(s[..|s| - 1]);
      var r := TrimEnd(s[..|s| - 1]);
      assert s[|r|..] == s[..|s| - 1][|r|..] + [s[|s| - 1]];
    }
  }

  /** What trim keeps is an infix of `s` whose ends are not white space, and
      what it drops on either side is all white space. */
  lemma TrimIsInfix(s: string)
    ensures Trimmed(Trim(s))
    ensures exists i, j :: 0 <= i <= j <= |s| && Trim(s) == s[i..j] && AllSpace(s[..i]) && AllSpace(s[j..])
  {
    TrimStartDropsPrefix(s);
    var a := TrimStart(s);
    TrimEndDropsSuffix(a);
    var r := TrimEnd(a);
    var i := |s| - |a|;
    var j := i + |r|;
    assert r == s[i..j];
    assert s[j..] == a[|r|..];
    if |r| > 0 {
      assert r[0] == a[0];
    }
  }

  /** Trimming a string whose ends are not white space changes nothing. */
  lemma TrimTrimmed(s: string)
    requires Trimmed(s)
    ensures Trim(s) == s
  {
    assert TrimStart(s) == s;
  }

  /** Trimming twice is trimming once. */
  lemma TrimIdempotent(s: string)
    ensures Trim(Trim(s)) == Trim(s)
  {
    TrimIsInfix(s);
    TrimTrimmed(Trim(s));
  }

  // ---------------------------------------------------------------------------
  // toLowerCase

  /** Lower-case mapping of a single character; only A-Z are mapped. */
  function LowerChar(c: char): char {
    if 'A' <= c <= 'Z' then (c as int - 'A' as int + 'a' as int) as char else c
  }

  /** No upper-case ASCII letter is left. */
  predicate IsLower(s: string) {
    forall i :: 0 <= i < |s| ==> !('A' <= s[i] <= 'Z')
  }

  /** `s.toLowerCase()` restricted to the ASCII letters: no capital is left,
      the length is kept, and lower-case strings are exactly its fixed points. */
  function ToLower(s: string): (r: string)
    ensures |r| == |s| && IsLower(r)
    ensures IsLower(s) <==> r == s
  {
    var r := seq(|s|, i requires 0 <= i < |s| => LowerChar(s[i]));
    assert IsLower(s) ==> forall i :: 0 <= i < |s| ==> r[i] == s[i];
    r
  }

  /** Two characters that are the same letter up to ASCII case: equal, or one
      is a capital A-Z and the other lies 32 code points above it. */
  predicate SameIgnoringAsciiCase(x: char, y: char) {
    || x == y
    || ('A' <= x <= 'Z' && y as int == x as int + 32)
    || ('A' <= y <= 'Z' && x as int == y as int + 32)
  }

  /** Case-insensitive equality over ASCII letters, stated without `ToLower`. */
  predicate EqualIgnoringAsciiCase(a: string, b: string) {
    |a| == |b| && forall i :: 0 <= i < |a| ==> SameIgnoringAsciiCase(a[i], b[i])
  }

  lemma LowerCharAgrees(x: char, y: char)
    ensures LowerChar(x) == LowerChar(y) <==> SameIgnoringAsciiCase(x, y)
  {
  }

  /** Two strings lower-case to the same string exactly when they are equal
      up to ASCII case. */
  lemma ToLowerEqualIgnoringCase(a: string, b: string)
    ensures ToLower(a) == ToLower(b) <==> EqualIgnoringAsciiCase(a, b)
  {
    if ToLower(a) == ToLower(b) {
      forall i | 0 <= i < |a| ensures SameIgnoringAsciiCase(a[i], b[i]) {
        assert ToLower(a)[i] == LowerChar(a[i]) && ToLower(b)[i] == LowerChar(b[i]);
        LowerCharAgrees(a[i], b[i]);
      }
    }
    if EqualIgnoringAsciiCase(a, b) {
      forall i | 0 <= i < |a| ensures ToLower(a)[i] == ToLower(b)[i] {
        LowerCharAgrees(a[i], b[i]);
      }
    }
  }
}

=== FILE: user_model.dfy ===
/** The user schema: field constraints, the pre-save hashing step, the
    `select: false` projection of the password and `validatePassword`. */
module UserModel {
  import opened Wrappers
  import opened Strings
  import opened Api

  /** A user document. A field is `None` when it is undefined on the document. */
  datatype User = User(
    id: Id,
    name: Option<string>,
    email: Option<string>,
    password: Option<string>,
    passwordConfirm: Option<string>)

  /** The schema paths a validation error can name. */
  datatype UserPath = NamePath | EmailPath | PasswordPath | PasswordConfirmPath

  /** bcrypt, treated as opaque: `genSalt(rounds, entropy)` draws a salt (the
      random source is the `entropy` argument), `hash(plain, salt)` and
      `compare(plain, digest)`. */
  datatype Bcrypt = Bcrypt(
    genSalt: (nat, nat) -> string,
    hash: (string, string) -> string,
    compare: (string, string) -> bool)

  const MinPasswordLength: nat := 8
  const SaltRounds: nat := 12

  /** The assumed one-way property of the hash: a digest never equals its input. */
  ghost predicate HashNeverIdentity(bcrypt: Bcrypt) {
    forall plain, salt :: bcrypt.hash(plain, salt) != plain
  }

  /** The assumed agreement of `compare` with `hash`. */
  ghost predicate CompareAcceptsHash(bcrypt: Bcrypt) {
    forall plain, salt :: bcrypt.compare(plain, bcrypt.hash(plain, salt))
  }

  /** The paths of `u` that fail their validators; `isEmail` is validator.js's
      opaque predicate. The `passwordConfirm` validator compares against the
      password as it is at validation time, before hashing. */
  function UserErrors(isEmail: string -> bool, u: User): (errors: set<UserPath>)
    ensures errors == {} <==>
      && Required(u.name)
      && Required(u.email) && isEmail(u.email.value)
      && Required(u.password) && |u.password.value| >= MinPasswordLength
      && u.passwordConfirm == u.password
  {
    (if Required(u.name) then {} else {NamePath})
    + (if Required(u.email) && isEmail(u.email.value) then {} else {EmailPath})
    + (if Required(u.password) && |u.password.value| >= MinPasswordLength then {} else {PasswordPath})
    + (if Required(u.passwordConfirm) && u.passwordConfirm == u.password then {} else {PasswordConfirmPath})
  }

  /** The `pre('save')` hook: replace the password by its salted hash and drop
      the confirmation. Only reached once validation passed, so the password is
      defined. */
  function PreSave(bcrypt: Bcrypt, entropy: nat, u: User): (r: User)
    requires u.password.Some?
    ensures r.passwordConfirm.None?
    ensures r.password == Some(bcrypt.hash(u.password.value, bcrypt.genSalt(SaltRounds, entropy)))
    ensures r.(password := u.password, passwordConfirm := u.passwordConfirm) == u
  {
    var salt := bcrypt.genSalt(SaltRounds, entropy);
    u.(password := Some(bcrypt.hash(u.password.value, salt)), passwordConfirm := None)
  }

  /** A user as a default query returns it: `password` is `select: false`. */
  function DefaultView(u: User): (r: User)
    ensures r.password.None?
    ensures r.(password := u.password) == u
  {
    u.(password := None)
  }

  /** `validatePassword(candidate, digest)`: exactly bcrypt's compare. */
  function ValidatePassword(bcrypt: Bcrypt, candidate: string, digest: string): (ok: bool)
    ensures CompareAcceptsHash(bcrypt) && (exists salt :: digest == bcrypt.hash(candidate, salt)) ==> ok
  {
    bcrypt.compare(candidate, digest)
  }

  /** What every persisted user satisfies: it passed validation (with its plain
      password) and went through `PreSave`. */
  predicate StoredUser(isEmail: string -> bool, u: User) {
    && Required(u.name)
    && Required(u.email) && isEmail(u.email.value) && IsLower(u.email.value)
    && u.password.Some?
    && u.passwordConfirm.None?
  }

  /** The `unique: true` index on `email`. */
  predicate UniqueEmails(users: map<Id, User>) {
    forall a, b :: a in users && b in users && users[a].email.Some? && users[a].email == users[b].email ==> a == b
  }

  /** Whether some stored user already holds `email`. */
  predicate EmailTaken(users: map<Id, User>, email: string) {
    exists id :: id in users && users[id].email == Some(email)
  }

  /** The invariant of the users collection. */
  predicate UserStoreOk(isEmail: string -> bool, users: map<Id, User>) {
    && UniqueEmails(users)
    && forall id :: id in users ==> users[id].id == id && StoredUser(isEmail, users[id])
  }

  /** `User.findOne({ email })`: the user holding `email`, if any; the unique
      index makes it the only one. */
  function FindByEmail(users: map<Id, User>, email: string): (r: Option<User>)
    requires UniqueEmails(users)
    ensures r.Some? <==> EmailTaken(users, email)
    ensures r.Some? ==> r.value.email == Some(email)
    ensures r.Some? ==> forall id :: id in users && users[id].email == Some(email) ==> users[id] == r.value
  {
    if exists id :: id in users && users[id].email == Some(email) then
      var id :| id in users && users[id].email == Some(email);
      Some(users[id])
    else
      None
  }

  /** A validated user, once hashed, satisfies the stored-user invariant
      whenever its email is already lower case (the schema setter sees to that). */
  lemma PreSaveStores(isEmail: string -> bool, bcrypt: Bcrypt, entropy: nat, u: User)
    requires UserErrors(isEmail, u) == {}
    requires IsLower(u.email.value)
    ensures StoredUser(isEmail, PreSave(bcrypt, entropy, u))
    ensures HashNeverIdentity(bcrypt) ==> PreSave(bcrypt, entropy, u).password != u.password
    ensures CompareAcceptsHash(bcrypt) ==> ValidatePassword(bcrypt, u.password.value, PreSave(bcrypt, entropy, u).password.value)
  {
    var salt := bcrypt.genSalt(SaltRounds, entropy);
    assert EmailPath !in UserErrors(isEmail, u);
    if HashNeverIdentity(bcrypt) {
      assert bcrypt.hash(u.password.value, salt) != u.password.value;
    }
    if CompareAcceptsHash(bcrypt) {
      assert bcrypt.compare(u.password.value, bcrypt.hash(u.password.value, salt));
    }
  }
}

=== FILE: wrappers.dfy ===
/** The optional and two-outcome values used throughout the model. */
module Wrappers {

  /** A value that may be undefined, as a JavaScript property may be. */
  datatype Option<+T> = None | Some(value: T)

  /** Either a computed value or the error that stopped the computation. */
  datatype Result<+R, +E> = Success(value: R) | Failure(error: E)
}
